=== FILE: README.md ===
# StudyPulse session store, modelled in Dafny

StudyPulse is a small study-session tracker. Its backend keeps an in-memory
list of session records and an id counter, and serves four routes: list the
sessions, create one, toggle a session's completed flag, and compute
statistics (session count, completed count, total minutes, and an
average-mood label). This project models that store and its handlers as pure
functions over an immutable `Store` value and proves what they promise.

Modules:

- `Optional`: the `Option` type used for request fields that may be missing and for searches that may fail.
- `Decimal`: a duration sent as decimal text, and the number `Number()` reads from it.
- `SessionStore`: the session record, the duration field and its truthiness, the store, and the id invariant `Valid`.
- `Routes`: the list, create and toggle handlers. Each returns the next store and an `Outcome`: `Ok`, `ValidationError` or `NotFound`.
- `Statistics`: the stats route, its mood score table and label thresholds, and the lemmas about the aggregates.
- `MoodTable`: the mood lookup exactly as the code writes it. See "Findings".

`Routes.List` returns the stored sequence unchanged. Its promise (N
accepted creates give N records in submission order) is stated by
`Routes.CreateAllAppendsInOrder`.

The average-mood thresholds use integer cross-multiplication. For example,
`sum / count >= 3.5` becomes `2 * sum >= 7 * count`. `Statistics.LabelMatchesMean`
proves these comparisons pick the same bucket as the exact real average.

Where the documented behaviour of the system and its code differ, the model follows the code:

- A duration that is non-numeric text makes `Number()` return `NaN` in the code. It is not "treated as 0", so the model does not claim that.
- The text `"0"` is truthy. It passes the create check and then counts as 0 minutes. Only a numeric `0`, an empty text or a missing field is refused.
- A mood outside the four known ones is not always skipped by the code (see "Findings"). This is the one place where the model departs from the code: `Statistics.Stats` uses the intended four-entry table, and the code's own label is modelled separately by `MoodTable.LabelAsWritten`.

## Model

| member | source | states |
|---|---|---|
| `SessionStore.MinutesOf` | backend/server.js:59 | a falsy duration (missing, `0`, `""`) contributes 0; a numeric one contributes itself; a digit text contributes the value `Decimal.Value` reads from it |
| `SessionStore.InitialValid` | backend/server.js:11-12 | the empty store with counter 1 satisfies the id invariant |
| `SessionStore.ValidIdsDistinct` | backend/server.js:28 | in a store meeting the id invariant, two records share an id exactly when they are the same position |
| `Decimal.Value` | backend/server.js:59 | the number read from a k-digit text is below 10^k (and 0 for the empty text) |
| `Decimal.ValueOfDigits` | backend/server.js:59 | reading back the decimal rendering of any natural number gives that number |
| `Decimal.LeadingZero` | backend/server.js:59 | a leading zero does not change the number read from a digit text |
| `Routes.List` | backend/server.js:15-17 | the list answer holds exactly the stored records (the same multiset, with the same length), and in a store meeting the id invariant it is ordered by strictly increasing id (insertion order) |
| `Routes.Create` | backend/server.js:20-39 | create succeeds exactly when all four fields are truthy; on failure the store is unchanged and the answer is the "All fields are required." error; on success exactly one record is appended, earlier records are untouched, the record's id is the old counter, its fields are copied from the request, its date is the clock reading, it is not completed, and the counter goes up by one |
| `Routes.FindIndex` | backend/server.js:44 | finds nothing exactly when no record has the id; otherwise gives the first position holding that id |
| `Routes.Toggle` | backend/server.js:42-52 | not-found exactly when no record has the id, and then the store is unchanged; otherwise the length and counter are kept, the first record with that id has its completed flag negated and no other field changed, every other record is unchanged, and the answer is the updated record |
| `Routes.CreatePreservesValid` | backend/server.js:27-37 | create keeps ids positive, strictly increasing and below the counter, and a new id exceeds every earlier id |
| `Routes.TogglePreservesValid` | backend/server.js:44-50 | toggle keeps the id invariant and changes no record's id |
| `Routes.ToggleTwice` | backend/server.js:50 | toggling the same id twice restores the original store, for known and unknown ids alike |
| `Routes.CreateAllAppendsInOrder` | backend/server.js:15-38 | N accepted creates make the list N records longer, keep the earlier records as a prefix, append the new ones in submission order with consecutive ids from the counter and their requests' fields and timestamps, and advance the counter by N |
| `Statistics.MoodScore` | backend/server.js:63 | exactly the four known moods have a score, and every score is between 1 and 4 |
| `Statistics.MoodRanking` | backend/server.js:63 | every known mood has a score and the scores fall strictly from grinning to smiling to neutral to frowning; with the 1 to 4 range this fixes them as 4, 3, 2 and 1 |
| `Statistics.CompletedCount` | backend/server.js:57 | the completed count never exceeds the number of records |
| `Statistics.MoodCount` | backend/server.js:64-72 | the number of scored records never exceeds the number of records |
| `Statistics.MoodSum` | backend/server.js:63-72 | the mood sum lies between the scored count and four times it |
| `Statistics.TotalMinutes` | backend/server.js:58-61 | the total over all records is non-negative when every record's minutes are, and 0 when every record contributes 0 (the empty store included); `Statistics.StatsAppend` gives the per-record step |
| `Statistics.AvgMoodLabel` | backend/server.js:74-81 | the label is "N/A" exactly when no record was scored |
| `Statistics.Stats` | backend/server.js:55-89 | the total is the list length, the completed count is at most the total, and the label is "N/A" exactly when no record has a known mood (the intended table; see "Findings") |
| `Statistics.CompletedCountIsFlagCount` | backend/server.js:57 | the completed count equals the number of positions whose record is completed |
| `Statistics.StatsPermutation` | backend/server.js:56-81 | any reordering of the records gives the same four aggregates, the label included |
| `Statistics.LabelMatchesMean` | backend/server.js:75-81 | the integer threshold tests choose the same label as comparing the exact average with 3.5, 2.5 and 1.5 in that order |
| `Statistics.StatsLabelIsMeanBucket` | backend/server.js:63-81 | the label is "N/A" with no scored record, and otherwise the bucket of the exact mean score over the records with a known mood |
| `Statistics.StatsAppend` | backend/server.js:56-72 | one more record adds one session, its completed flag, its minutes (whatever its mood) and, only for a known mood, its score and one to the mood count; an unknown mood leaves the label unchanged |
| `Statistics.CreateUpdatesStats` | backend/server.js:56-61 | an accepted create adds one session, no completed one, and the request's minutes; a refused create leaves the stats unchanged |
| `Statistics.ToggleUpdatesStats` | backend/server.js:50-81 | a toggle moves the completed count by one toward the new flag and keeps the total, the minutes and the label; an unknown id changes nothing |
| `Statistics.EmptyStats` | backend/server.js:56-87 | an empty store gives 0 sessions, 0 completed, 0 minutes and "N/A" |
| `Statistics.MoodExample` | backend/server.js:63-81 | moods grinning, grinning, neutral give sum 10 over 3 and the label "Balanced 🙂" |
| `Statistics.MinutesExample` | backend/server.js:58-61 | durations 30, "45" and 0 total 75 minutes |
| `Statistics.UnknownMoodExample` | backend/server.js:56-72 | a record with an unknown mood is counted as a session and for its minutes, but the label stays "N/A" |
| `MoodTable.LookupAsWritten` | backend/server.js:63-68 | a lookup finds an own score exactly for the four known moods, and an inherited property exactly for the names on `Object.prototype` |
| `MoodTable.TallyAsWritten` | backend/server.js:64-72 | as written, the mood count is at most the number of records, the sum becomes a string exactly when some mood is an inherited property name, and a string sum always comes with a positive count |
| `MoodTable.LabelAsWritten` | backend/server.js:74-81 | as written, the label is "N/A" exactly when nothing was counted, and "Very Stressed" once the sum has become a string |
| `MoodTable.InheritedKeyAlwaysMislabels` | backend/server.js:63-80 | as written, any list holding at least one record whose mood is an inherited property name gets "Very Stressed", whatever the other records are |
| `MoodTable.InheritedKeyMislabels` | backend/server.js:63-80 | as written, one record with mood "toString" gets "Very Stressed", while the intended table gives "N/A" |
| `MoodTable.OrdinaryTally` | backend/server.js:64-72 | when no mood is an inherited property name, the running sum as written stays a number equal to the intended mood sum, and the count equals the intended mood count |
| `MoodTable.AsWrittenAgreesOnOrdinaryMoods` | backend/server.js:63-81 | when no mood is an inherited property name, the code as written gives the same mood sum, count and label as the intended table |

## Left out

- Statistics.Stats: models the stats route with the intended mood table, which has only its four own entries. For a mood that names an inherited `Object.prototype` property, its label differs from the code's. The code's label is `MoodTable.LabelAsWritten`, and `MoodTable.AsWrittenAgreesOnOrdinaryMoods` shows the two agree on every other input.
- HTTP and Express plumbing (`cors`, JSON body parsing, `app.listen`, status codes 201/400/404, JSON output): this is transport, not logic. A handler's answer is modelled as an `Outcome`.
- The creation timestamp `new Date().toISOString()`: the clock is nondeterministic, so `Routes.Create` takes it as a `now` parameter and stores it unread.
- The route parameter parse `Number(id)` on toggle: toggle takes an integer id. A non-numeric id gives `NaN` in the code, which matches no record. That is the not-found case.
- Decimal.Value: covers only texts made of decimal digits. `Number()` on blanks, signs, fractions, exponents, hex or other text (which can give `NaN`) is not modelled.
- SessionStore.MinutesOf: numeric durations are integers. Fractional JSON numbers and `NaN` totals are not modelled.
- Request fields that are JSON values other than strings (numbers as titles, objects as moods) are not modelled. A text field is a string or missing.
- Floating-point division and rounding in `moodSum / moodCount`: the label uses exact integer comparisons. Doubles could only differ for mood counts far beyond any realistic store.
- JavaScript numbers lose integer precision above 2^53 (in `nextId` and in the sums). Dafny integers are unbounded.
- The React client (frontend/src/App.js): it is rendering, `fetch`, form state and the refetch-after-mutate flow with its out-of-order response race, all UI and asynchronous I/O. Its all/completed/pending filter is a one-line display predicate.
- Concurrency: the server handles one request at a time, so each handler is one function application.

## Findings

| source | as written | input that shows it | evidently intended | confidence | as-written member | corrected member |
|---|---|---|---|---|---|---|
| backend/server.js:63-80 | `moodScores[s.mood]` looks up a plain object literal. A mood naming an inherited `Object.prototype` property (`toString`, `__proto__`, ...) finds a truthy function or object. The record is counted, `moodSum` becomes a string, the average is `NaN`, and the label falls through to "Very Stressed ☹️" | a store holding one session whose mood is `"toString"` | moods outside the four known ones are skipped, so the label is "N/A" | not executed | `MoodTable.InheritedKeyAlwaysMislabels` | `Statistics.Stats` |

=== FILE: decimal.dfy ===
/**
 Decimal text as the client sends a duration typed into a form field, and the
 number JavaScript's `Number()` reads from it. Only plain digit strings are
 modelled: signs, blanks, fractions and exponents are not.
 */
module Decimal {

  predicate IsDigit(c: char) {
    '0' <= c <= '9'
  }

  predicate IsDigits(s: string) {
    forall i :: 0 <= i < |s| ==> IsDigit(s[i])
  }

  /** A string made of decimal digits only; the empty string is one. */
  type DigitString = s: string | IsDigits(s) witness ""

  function DigitValue(c: char): (d: nat)
    requires IsDigit(c)
    ensures d < 10
  {
    (c as int) - ('0' as int)
  }

  function DigitChar(d: nat): (c: char)
    requires d < 10
    ensures IsDigit(c) && DigitValue(c) == d
  {
    ('0' as int + d) as char
  }

  function Pow10(k: nat): (p: nat)
    ensures p >= 1
  {
    if k == 0 then 1 else 10 * Pow10(k - 1)
  }

  /** The value `Number(s)` gives for a digit string; `Number("")` is 0. */
  function Value(s: DigitString): (n: nat)
    ensures n < Pow10(|s|)
    decreases |s|
  {
    if |s| == 0 then 0
    else
      var prefix: DigitString := s[..|s| - 1];
      Value(prefix) * 10 + DigitValue(s[|s| - 1])
  }

  /** The shortest decimal rendering of `n`, as a number input shows it. */
  function Digits(n: nat): (s: DigitString)
    ensures 1 <= |s|
  {
    if n < 10 then [DigitChar(n)]
    else Digits(n / 10) + [DigitChar(n % 10)]
  }

  /** Reading back the rendering of a number gives that number. */
  lemma {:induction false} ValueOfDigits(n: nat)
    ensures Value(Digits(n)) == n
  {
    if n >= 10 {
      var s := Digits(n);
      assert s[..|s| - 1] == Digits(n / 10);
      ValueOfDigits(n / 10);
    }
  }

  /** Leading zeros do not change the value. */
  lemma {:induction false} LeadingZero(s: DigitString)
    ensures Value("0" + s) == Value(s)
    decreases |s|
  {
    if |s| > 0 {
      var t: DigitString := "0" + s;
      var prefix: DigitString := s[..|s| - 1];
      assert t[..|t| - 1] == "0" + prefix;
      LeadingZero(prefix);
    }
  }
}

=== FILE: mood_table.dfy ===
/**
 The mood aggregation exactly as the stats route writes it. The score table
 is a plain object literal, so looking a mood up also finds the properties
 every object inherits from `Object.prototype`. Those values are truthy, so
 the record is counted, and adding one to `moodSum` turns the sum into a
 string. The average is then `NaN`, every threshold test fails, and the
 label is the last one. `Statistics.Stats` models the intended table, which
 has only the four own entries.
 */
module MoodTable {

  import opened Optional
  import opened SessionStore
  import opened Statistics

  /** The property names a plain object inherits from `Object.prototype`. */
  const InheritedKeys: set<string> := {
    "constructor", "hasOwnProperty", "isPrototypeOf", "propertyIsEnumerable",
    "toLocaleString", "toString", "valueOf", "__proto__",
    "__defineGetter__", "__defineSetter__", "__lookupGetter__", "__lookupSetter__"
  }

  /** What `moodScores[mood]` gives: an own score, an inherited function or object, or `undefined`. */
  datatype Lookup = Own(score: int) | Inherited | Undefined

  function LookupAsWritten(mood: string): (r: Lookup)
    ensures r.Own? <==> MoodScore(mood).Some?
    ensures r.Own? ==> r.score == MoodScore(mood).value
    ensures r.Inherited? <==> mood in InheritedKeys
  {
    match MoodScore(mood)
    case Some(v) => Own(v)
    case None => if mood in InheritedKeys then Inherited else Undefined
  }

  /** The running `moodSum`: a number until a non-number is added, a string from then on. */
  datatype RunningSum = Numeric(n: int) | Concatenated

  datatype MoodTally = MoodTally(sum: RunningSum, count: nat)

  /** `moodSum` and `moodCount` after the `forEach` over the records. */
  function TallyAsWritten(s: seq<Session>): (t: MoodTally)
    ensures t.count <= |s|
    ensures t.sum.Concatenated? <==> exists i :: 0 <= i < |s| && s[i].mood in InheritedKeys
    ensures t.sum.Concatenated? ==> t.count > 0
    decreases |s|
  {
    if |s| == 0 then MoodTally(Numeric(0), 0)
    else
      var p := s[..|s| - 1];
      var before := TallyAsWritten(p);
      assert forall i :: 0 <= i < |p| ==> p[i] == s[i];
      match LookupAsWritten(s[|s| - 1].mood)
      case Undefined => before
      case Inherited => MoodTally(Concatenated, before.count + 1)
      case Own(v) =>
        var sum := match before.sum
          case Numeric(n) => Numeric(n + v)
          case Concatenated => Concatenated;
        MoodTally(sum, before.count + 1)
  }

  /** The label as written: `NaN` compares false against every threshold. */
  function LabelAsWritten(s: seq<Session>): (l: MoodLabel)
    ensures l == NotApplicable <==> TallyAsWritten(s).count == 0
    ensures TallyAsWritten(s).count > 0 && TallyAsWritten(s).sum.Concatenated? ==> l == VeryStressed
  {
    var t := TallyAsWritten(s);
    if t.count == 0 then NotApplicable
    else match t.sum
      case Concatenated => VeryStressed
      case Numeric(n) => AvgMoodLabel(n, t.count)
  }

  /** One record with an inherited key as its mood: "Very Stressed" as written, "N/A" as intended. */
  lemma InheritedKeyMislabels(a: Session)
    requires a.mood == "toString"
    ensures LabelAsWritten([a]) == VeryStressed
    ensures Stats([a]).avgMoodLabel == NotApplicable
  {
    assert [a][..0] == [];
  }

  /** Any record with an inherited key as its mood makes the label "Very Stressed", as written. */
  lemma InheritedKeyAlwaysMislabels(s: seq<Session>, i: int)
    requires 0 <= i < |s| && s[i].mood in InheritedKeys
    ensures LabelAsWritten(s) == VeryStressed
  {
  }

  /** Without inherited keys among the moods, the running sum stays the intended number. */
  lemma {:induction false} OrdinaryTally(s: seq<Session>)
    requires forall i :: 0 <= i < |s| ==> s[i].mood !in InheritedKeys
    ensures TallyAsWritten(s) == MoodTally(Numeric(MoodSum(s)), MoodCount(s))
    decreases |s|
  {
    if |s| > 0 {
      var p := s[..|s| - 1];
      var x := s[|s| - 1];
      assert forall i :: 0 <= i < |p| ==> p[i] == s[i];
      OrdinaryTally(p);
      assert s == p + [x];
      StatsAppend(p, x);
      assert !LookupAsWritten(x.mood).Inherited?;
    }
  }

  /** Without inherited keys among the moods, the code as written gives the intended stats. */
  lemma AsWrittenAgreesOnOrdinaryMoods(s: seq<Session>)
    requires forall i :: 0 <= i < |s| ==> s[i].mood !in InheritedKeys
    ensures TallyAsWritten(s) == MoodTally(Numeric(MoodSum(s)), MoodCount(s))
    ensures LabelAsWritten(s) == Stats(s).avgMoodLabel
  {
    OrdinaryTally(s);
  }
}

=== FILE: optional.dfy ===
/** An optional value: a request field that may be left out, or a search that may find nothing. */
module Optional {

  datatype Option<+T> = None | Some(value: T)
}

=== FILE: routes.dfy ===
/**
 The three handlers that read or change the store: list, create and toggle.
 A handler takes the store and the request and gives back the next store
 together with what it answers.
 */
module Routes {

  import opened Optional
  import opened SessionStore

  /** What a handler answers: the record it made or changed, or one of the two errors. */
  datatype Outcome =
    | Ok(session: Session)
    | ValidationError(message: string)
    | NotFound(message: string)

  datatype Step = Step(store: Store, outcome: Outcome)

  const FieldsRequiredMessage: string := "All fields are required."
  const NotFoundMessage: string := "Session not found."

  /** The body of a create request. A text field left out of the JSON is `None`. */
  datatype CreateRequest = CreateRequest(
    title: Option<string>,
    subject: Option<string>,
    durationMinutes: Duration,
    mood: Option<string>)

  /** JavaScript truthiness of a text field: missing and `""` are falsy. */
  predicate TextTruthy(f: Option<string>) {
    f.Some? && |f.value| > 0
  }

  /** The presence check create makes before it touches the store. */
  predicate FieldsPresent(req: CreateRequest) {
    && TextTruthy(req.title)
    && TextTruthy(req.subject)
    && DurationTruthy(req.durationMinutes)
    && TextTruthy(req.mood)
  }

  /**
   The list route answers with the records as stored, in insertion order;
   in a valid store that order is by increasing id.
   */
  function List(st: Store): (r: seq<Session>)
    ensures |r| == |st.sessions|
    ensures multiset(r) == multiset(st.sessions)
    ensures Valid(st) ==> forall i, j :: 0 <= i < j < |r| ==> r[i].id < r[j].id
  {
    st.sessions
  }

  /**
   Create a session from `req`, stamped with the clock reading `now`. A request
   with a falsy field is refused and nothing changes; otherwise the new record
   takes the counter as its id, starts not completed, and goes at the end.
   */
  function Create(st: Store, req: CreateRequest, now: string): (r: Step)
    ensures r.outcome.Ok? <==> FieldsPresent(req)
    ensures !FieldsPresent(req) ==>
      r.store == st && r.outcome == ValidationError(FieldsRequiredMessage)
    ensures FieldsPresent(req) ==>
      var s := r.outcome.session;
      && |r.store.sessions| == |st.sessions| + 1
      && r.store.sessions[..|st.sessions|] == st.sessions
      && r.store.sessions[|st.sessions|] == s
      && r.store.nextId == st.nextId + 1
      && NewRecordFrom(s, st.nextId, req, now)
  {
    if !FieldsPresent(req) then
      Step(st, ValidationError(FieldsRequiredMessage))
    else
      var s := Session(st.nextId, req.title.value, req.subject.value,
                       req.durationMinutes, req.mood.value, now, false);
      Step(Store(st.sessions + [s], st.nextId + 1), Ok(s))
  }

  /** The position of the first record with the given id, as `Array.find` scans. */
  function FindIndex(sessions: seq<Session>, id: int): (r: Option<nat>)
    ensures r.None? <==> forall i :: 0 <= i < |sessions| ==> sessions[i].id != id
    ensures r.Some? ==>
      && r.value < |sessions|
      && sessions[r.value].id == id
      && forall j :: 0 <= j < r.value ==> sessions[j].id != id
  {
    if |sessions| == 0 then None
    else if sessions[0].id == id then Some(0)
    else match FindIndex(sessions[1..], id)
      case None => None
      case Some(k) => Some(k + 1)
  }

  /**
   Flip the completed flag of the first record with id `id`. An unknown id
   is answered with not-found and nothing changes; otherwise only that flag
   of that record changes.
   */
  function Toggle(st: Store, id: int): (r: Step)
    ensures r.outcome.NotFound? <==> forall i :: 0 <= i < |st.sessions| ==> st.sessions[i].id != id
    ensures r.outcome.NotFound? ==> r.store == st && r.outcome.message == NotFoundMessage
    ensures !r.outcome.NotFound? ==>
      && r.outcome.Ok?
      && r.store.nextId == st.nextId
      && |r.store.sessions| == |st.sessions|
      && exists i :: 0 <= i < |st.sessions| && st.sessions[i].id == id
           && (forall j :: 0 <= j < i ==> st.sessions[j].id != id)
           && r.store.sessions[i] == st.sessions[i].(completed := !st.sessions[i].completed)
           && r.outcome.session == r.store.sessions[i]
           && forall j :: 0 <= j < |st.sessions| && j != i ==> r.store.sessions[j] == st.sessions[j]
  {
    match FindIndex(st.sessions, id)
    case None => Step(st, NotFound(NotFoundMessage))
    case Some(i) =>
      var s := st.sessions[i].(completed := !st.sessions[i].completed);
      Step(Store(st.sessions[i := s], st.nextId), Ok(s))
  }

  /** Create keeps the id discipline, and the new id exceeds every earlier one. */
  lemma CreatePreservesValid(st: Store, req: CreateRequest, now: string)
    requires Valid(st)
    ensures Valid(Create(st, req, now).store)
    ensures Create(st, req, now).outcome.Ok? ==>
      forall i :: 0 <= i < |st.sessions| ==> st.sessions[i].id < Create(st, req, now).outcome.session.id
  {
  }

  /** Toggle keeps the id discipline: no id changes. */
  lemma TogglePreservesValid(st: Store, id: int)
    requires Valid(st)
    ensures Valid(Toggle(st, id).store)
    ensures forall i :: 0 <= i < |st.sessions| ==> Toggle(st, id).store.sessions[i].id == st.sessions[i].id
  {
  }

  /** Toggling the same id twice gives back the store it started from. */
  lemma ToggleTwice(st: Store, id: int)
    ensures Toggle(Toggle(st, id).store, id).store == st
  {
  }

  /** Apply one create per request, the i-th stamped with `nows[i]`. */
  function CreateAll(st: Store, reqs: seq<CreateRequest>, nows: seq<string>): Store
    requires |reqs| == |nows|
    decreases |reqs|
  {
    if |reqs| == 0 then st
    else
      var before := CreateAll(st, reqs[..|reqs| - 1], nows[..|nows| - 1]);
      Create(before, reqs[|reqs| - 1], nows[|nows| - 1]).store
  }

  /**
   `after` is `before` with one record per request appended in submission
   order, carrying consecutive ids from the counter, and nothing else changed.
   */
  predicate AppendedInOrder(before: Store, after: Store, reqs: seq<CreateRequest>, nows: seq<string>)
    requires |reqs| == |nows|
  {
    && |after.sessions| == |before.sessions| + |reqs|
    && after.sessions[..|before.sessions|] == before.sessions
    && after.nextId == before.nextId + |reqs|
    && forall k :: 0 <= k < |reqs| ==> NewRecordFrom(after.sessions[|before.sessions| + k], before.nextId + k, reqs[k], nows[k])
  }

  predicate NewRecordFrom(s: Session, id: int, req: CreateRequest, now: string) {
    && s.id == id
    && Some(s.title) == req.title
    && Some(s.subject) == req.subject
    && s.duration == req.durationMinutes
    && Some(s.mood) == req.mood
    && s.date == now
    && !s.completed
  }

  /**
   N accepted creates append N records in submission order, with consecutive
   ids starting at the counter, and leave the earlier records alone.
   */
  lemma {:induction false} CreateAllAppendsInOrder(st: Store, reqs: seq<CreateRequest>, nows: seq<string>)
    requires |reqs| == |nows|
    requires forall k :: 0 <= k < |reqs| ==> FieldsPresent(reqs[k])
    ensures AppendedInOrder(st, CreateAll(st, reqs, nows), reqs, nows)
    decreases |reqs|
  {
    if |reqs| > 0 {
      var n := |reqs| - 1;
      var before := CreateAll(st, reqs[..n], nows[..n]);
      CreateAllAppendsInOrder(st, reqs[..n], nows[..n]);
      var after := CreateAll(st, reqs, nows);
      assert after == Create(before, reqs[n], nows[n]).store;
      assert after.sessions[..|before.sessions|] == before.sessions;
      forall k | 0 <= k < |reqs|
        ensures NewRecordFrom(after.sessions[|st.sessions| + k], st.nextId + k, reqs[k], nows[k])
      {
        if k < n {
          assert after.sessions[|st.sessions| + k] == before.sessions[|st.sessions| + k];
          assert reqs[..n][k] == reqs[k] && nows[..n][k] == nows[k];
        }
      }
      assert after.sessions[..|st.sessions|] == before.sessions[..|st.sessions|];
    }
  }
}

=== FILE: session_store.dfy ===
/**
 The in-memory store of study sessions: the ordered list of session records
 and the counter that hands out the next id.
 */
module SessionStore {

  import Decimal

  /**
   What a record holds as `durationMinutes`. A JSON body may leave it out,
   give a number, or give the text of a number (the form sends text).
   */
  datatype Duration = Absent | Minutes(n: int) | Text(digits: Decimal.DigitString)

  /** JavaScript truthiness of a duration: missing, `0` and `""` are falsy. */
  predicate DurationTruthy(d: Duration) {
    match d
    case Absent => false
    case Minutes(n) => n != 0
    case Text(digits) => |digits| > 0
  }

  /** `Number(d || 0)`: the minutes a record contributes to the total. */
  function MinutesOf(d: Duration): (m: int)
    ensures !DurationTruthy(d) ==> m == 0
    ensures d.Minutes? ==> m == d.n
    ensures d.Text? ==> m == Decimal.Value(d.digits)
  {
    if !DurationTruthy(d) then 0
    else match d
      case Minutes(n) => n
      case Text(digits) => Decimal.Value(digits)
  }

  /** One logged study session. `date` is the creation timestamp, kept opaque. */
  datatype Session = Session(
    id: int,
    title: string,
    subject: string,
    duration: Duration,
    mood: string,
    date: string,
    completed: bool)

  datatype Store = Store(sessions: seq<Session>, nextId: int)

  /** The store as the process starts: no sessions, next id 1. */
  const Initial: Store := Store([], 1)

  /**
   The id discipline the store keeps: ids are positive, strictly increasing
   along the list, and all below the counter, so the counter never hands out
   an id already in use.
   */
  predicate Valid(st: Store) {
    && st.nextId >= 1
    && (forall i :: 0 <= i < |st.sessions| ==> 1 <= st.sessions[i].id < st.nextId)
    && (forall i, j :: 0 <= i < j < |st.sessions| ==> st.sessions[i].id < st.sessions[j].id)
  }

  lemma InitialValid()
    ensures Valid(Initial)
  {
  }

  /** In a valid store no two records share an id. */
  lemma ValidIdsDistinct(st: Store, i: int, j: int)
    requires Valid(st)
    requires 0 <= i < |st.sessions| && 0 <= j < |st.sessions|
    ensures st.sessions[i].id == st.sessions[j].id <==> i == j
  {
    if i < j {
      assert st.sessions[i].id < st.sessions[j].id;
    } else if j < i {
      assert st.sessions[j].id < st.sessions[i].id;
    }
  }
}

=== FILE: statistics.dfy ===
/**
 The stats route: four aggregates computed from the whole list of sessions,
 without changing it.
 */
module Statistics {

  import opened Optional
  import opened SessionStore
  import opened Routes

  /** The four moods the client offers, most positive first. */
  const Grinning: string := "\U{1F604}"
  const Smiling: string := "\U{1F642}"
  const Neutral: string := "\U{1F610}"
  const Frowning: string := "\U{2639}\U{FE0F}"

  /**
   The mood score table: the four known moods score 4, 3, 2 and 1; any other
   text has no entry and is left out of the mood average.
   */
  function MoodScore(mood: string): (r: Option<int>)
    ensures r.Some? <==> mood in {Grinning, Smiling, Neutral, Frowning}
    ensures r.Some? ==> 1 <= r.value <= 4
  {
    if mood == Grinning then Some(4)
    else if mood == Smiling then Some(3)
    else if mood == Neutral then Some(2)
    else if mood == Frowning then Some(1)
    else None
  }

  /** The scores follow the moods from the most positive to the most negative. */
  lemma MoodRanking()
    ensures MoodScore(Grinning).Some? && MoodScore(Smiling).Some?
    ensures MoodScore(Neutral).Some? && MoodScore(Frowning).Some?
    ensures MoodScore(Grinning).value > MoodScore(Smiling).value
    ensures MoodScore(Smiling).value > MoodScore(Neutral).value
    ensures MoodScore(Neutral).value > MoodScore(Frowning).value
  {
  }

  datatype MoodLabel = NotApplicable | MostlyHappy | Balanced | Stressed | VeryStressed {
    /** The text the stats route sends for the label. */
    function Text(): string {
      match this
      case NotApplicable => "N/A"
      case MostlyHappy => "Mostly Happy " + Grinning
      case Balanced => "Balanced " + Smiling
      case Stressed => "Stressed " + Neutral
      case VeryStressed => "Very Stressed " + Frowning
    }
  }

  datatype Report = Report(
    totalSessions: nat,
    completedSessions: nat,
    totalMinutes: int,
    avgMoodLabel: MoodLabel)

  /** The sum of `f` over the records, added from the first to the last as `reduce` does. */
  function Tally(s: seq<Session>, f: Session -> int): int
    decreases |s|
  {
    if |s| == 0 then 0 else Tally(s[..|s| - 1], f) + f(s[|s| - 1])
  }

  function CompletedWeight(x: Session): int {
    if x.completed then 1 else 0
  }

  function MinutesWeight(x: Session): int {
    MinutesOf(x.duration)
  }

  function ScoreWeight(x: Session): int {
    match MoodScore(x.mood)
    case Some(v) => v
    case None => 0
  }

  function MatchWeight(x: Session): int {
    if MoodScore(x.mood).Some? then 1 else 0
  }

  /** The number of records whose completed flag is set. */
  function CompletedCount(s: seq<Session>): (n: nat)
    ensures n <= |s|
  {
    TallyZeroOne(s, CompletedWeight);
    Tally(s, CompletedWeight)
  }

  /** The number of records with one of the four known moods. */
  function MoodCount(s: seq<Session>): (n: nat)
    ensures n <= |s|
  {
    TallyZeroOne(s, MatchWeight);
    Tally(s, MatchWeight)
  }

  /** The sum of the scores of the records with a known mood. */
  function MoodSum(s: seq<Session>): (n: int)
    ensures MoodCount(s) <= n <= 4 * MoodCount(s)
  {
    MoodSumBounds(s);
    Tally(s, ScoreWeight)
  }

  /** The total of all durations, a falsy one counting 0, whatever the record's mood. */
  function TotalMinutes(s: seq<Session>): (n: int)
    ensures (forall i :: 0 <= i < |s| ==> MinutesOf(s[i].duration) >= 0) ==> n >= 0
    ensures (forall i :: 0 <= i < |s| ==> MinutesOf(s[i].duration) == 0) ==> n == 0
  {
    MinutesSign(s);
    Tally(s, MinutesWeight)
  }

  lemma {:induction false} MinutesSign(s: seq<Session>)
    ensures (forall i :: 0 <= i < |s| ==> MinutesOf(s[i].duration) >= 0) ==> Tally(s, MinutesWeight) >= 0
    ensures (forall i :: 0 <= i < |s| ==> MinutesOf(s[i].duration) == 0) ==> Tally(s, MinutesWeight) == 0
    decreases |s|
  {
    if |s| > 0 {
      var p := s[..|s| - 1];
      assert forall i :: 0 <= i < |p| ==> p[i] == s[i];
      MinutesSign(p);
    }
  }

  /**
   The label for a mood sum over `count` scored records. The average
   `sum / count` is compared with 3.5, 2.5 and 1.5 in that order, written
   here without division: `sum / count >= t` is `2 * sum >= 2 * t * count`.
   */
  function AvgMoodLabel(sum: int, count: nat): (l: MoodLabel)
    ensures l == NotApplicable <==> count == 0
  {
    if count == 0 then NotApplicable
    else if 2 * sum >= 7 * count then MostlyHappy
    else if 2 * sum >= 5 * count then Balanced
    else if 2 * sum >= 3 * count then Stressed
    else VeryStressed
  }

  /**
   The stats route's answer for the given list of sessions, with the mood
   table holding only its four own entries. The label the code computes,
   where a mood may also hit an inherited property, is
   `MoodTable.LabelAsWritten`.
   */
  function Stats(sessions: seq<Session>): (r: Report)
    ensures r.totalSessions == |sessions|
    ensures r.completedSessions <= r.totalSessions
    ensures r.avgMoodLabel == NotApplicable <==>
      forall i :: 0 <= i < |sessions| ==> MoodScore(sessions[i].mood).None?
  {
    NoMatchIffZero(sessions);
    Report(
      |sessions|,
      CompletedCount(sessions),
      TotalMinutes(sessions),
      AvgMoodLabel(MoodSum(sessions), MoodCount(sessions)))
  }

  // ---------------------------------------------------------------- Tally

  lemma TallyAppend(s: seq<Session>, x: Session, f: Session -> int)
    ensures Tally(s + [x], f) == Tally(s, f) + f(x)
  {
    assert (s + [x])[..|s|] == s;
  }

  lemma {:induction false} TallyConcat(a: seq<Session>, b: seq<Session>, f: Session -> int)
    ensures Tally(a + b, f) == Tally(a, f) + Tally(b, f)
    decreases |b|
  {
    if |b| == 0 {
      assert a + b == a;
    } else {
      var b' := b[..|b| - 1];
      var x := b[|b| - 1];
      assert b == b' + [x];
      assert a + b == (a + b') + [x];
      TallyAppend(a + b', x, f);
      TallyAppend(b', x, f);
      TallyConcat(a, b', f);
    }
  }

  lemma TallySplit(s: seq<Session>, i: int, f: Session -> int)
    requires 0 <= i < |s|
    ensures Tally(s, f) == Tally(s[..i], f) + f(s[i]) + Tally(s[i + 1..], f)
  {
    assert s == s[..i] + [s[i]] + s[i + 1..];
    TallyConcat(s[..i] + [s[i]], s[i + 1..], f);
    TallyAppend(s[..i], s[i], f);
  }

  /** Replacing one record changes the sum by that record's difference only. */
  lemma TallyUpdate(s: seq<Session>, i: int, y: Session, f: Session -> int)
    requires 0 <= i < |s|
    ensures Tally(s[i := y], f) == Tally(s, f) - f(s[i]) + f(y)
  {
    var t := s[i := y];
    assert t[..i] == s[..i] && t[i + 1..] == s[i + 1..];
    TallySplit(s, i, f);
    TallySplit(t, i, f);
  }

  /** Taking the record at `k` out of the list takes its weight out of the sum. */
  lemma TallyRemove(b: seq<Session>, k: int, f: Session -> int)
    requires 0 <= k < |b|
    ensures multiset(b) == multiset(b[..k] + b[k + 1..]) + multiset{b[k]}
    ensures Tally(b, f) == Tally(b[..k] + b[k + 1..], f) + f(b[k])
  {
    assert b == b[..k] + [b[k]] + b[k + 1..];
    TallySplit(b, k, f);
    TallyConcat(b[..k], b[k + 1..], f);
  }

  /** The sum does not depend on the order of the records. */
  lemma {:induction false} TallyPermutation(a: seq<Session>, b: seq<Session>, f: Session -> int)
    requires multiset(a) == multiset(b)
    ensures Tally(a, f) == Tally(b, f)
    decreases |a|
  {
    if |a| == 0 {
      assert |multiset(b)| == 0;
    } else {
      var a' := a[..|a| - 1];
      var x := a[|a| - 1];
      assert a == a' + [x];
      assert multiset(a) == multiset(a') + multiset{x};
      assert x in multiset(b);
      var k :| 0 <= k < |b| && b[k] == x;
      var b' := b[..k] + b[k + 1..];
      TallyRemove(b, k, f);
      assert multiset(a') == multiset(a) - multiset{x};
      assert multiset(b') == multiset(b) - multiset{x};
      TallyPermutation(a', b', f);
    }
  }

  /** Summing a weight of 0 or 1 per record counts at most every record. */
  lemma {:induction false} TallyZeroOne(s: seq<Session>, f: Session -> int)
    requires forall x :: 0 <= f(x) <= 1
    ensures 0 <= Tally(s, f) <= |s|
    decreases |s|
  {
    if |s| > 0 {
      TallyZeroOne(s[..|s| - 1], f);
    }
  }

  lemma {:induction false} MoodSumBounds(s: seq<Session>)
    ensures Tally(s, MatchWeight) <= Tally(s, ScoreWeight) <= 4 * Tally(s, MatchWeight)
    decreases |s|
  {
    if |s| > 0 {
      MoodSumBounds(s[..|s| - 1]);
    }
  }

  lemma {:induction false} NoMatchIffZero(s: seq<Session>)
    ensures Tally(s, MatchWeight) == 0 <==> forall i :: 0 <= i < |s| ==> MoodScore(s[i].mood).None?
    decreases |s|
  {
    if |s| > 0 {
      var p := s[..|s| - 1];
      NoMatchIffZero(p);
      TallyZeroOne(p, MatchWeight);
      assert forall i :: 0 <= i < |p| ==> p[i] == s[i];
    }
  }

  // ------------------------------------------------------------ properties

  /** The completed count is the number of positions holding a completed record. */
  lemma {:induction false} CompletedCountIsFlagCount(s: seq<Session>)
    ensures CompletedCount(s) == |set i | 0 <= i < |s| && s[i].completed|
    decreases |s|
  {
    if |s| > 0 {
      var p := s[..|s| - 1];
      var n := |s| - 1;
      CompletedCountIsFlagCount(p);
      var before := set i | 0 <= i < |p| && p[i].completed;
      var after := set i | 0 <= i < |s| && s[i].completed;
      if s[n].completed {
        assert after == before + {n};
        assert n !in before;
      } else {
        assert after == before;
      }
    }
  }

  /** Reordering the records changes none of the four aggregates. */
  lemma StatsPermutation(a: seq<Session>, b: seq<Session>)
    requires multiset(a) == multiset(b)
    ensures Stats(a) == Stats(b)
  {
    assert |a| == |multiset(a)| == |multiset(b)| == |b|;
    TallyPermutation(a, b, CompletedWeight);
    TallyPermutation(a, b, MinutesWeight);
    TallyPermutation(a, b, ScoreWeight);
    TallyPermutation(a, b, MatchWeight);
  }

  /** The label bucket of an exact average, thresholds tried from the highest. */
  function LabelOfMean(avg: real): MoodLabel {
    if avg >= 3.5 then MostlyHappy
    else if avg >= 2.5 then Balanced
    else if avg >= 1.5 then Stressed
    else VeryStressed
  }

  lemma ScaleKeepsOrder(x: real, y: real, c: real)
    requires c > 0.0
    ensures x >= y <==> x * c >= y * c
  {
    assert x * c - y * c == (x - y) * c;
  }

  lemma AtLeastIffScaled(sum: int, count: nat, k: int)
    requires count > 0
    ensures (sum as real) / (count as real) >= (k as real) / 2.0 <==> 2 * sum >= k * count
  {
    var c := count as real;
    var avg := (sum as real) / c;
    var t := (k as real) / 2.0;
    assert avg * c == sum as real;
    assert t * c * 2.0 == (k * count) as real;
    ScaleKeepsOrder(avg, t, c);
    ScaleKeepsOrder(avg * c, t * c, 2.0);
  }

  /** The integer comparisons pick the same bucket as the exact average `sum / count`. */
  lemma LabelMatchesMean(sum: int, count: nat)
    requires count > 0
    ensures AvgMoodLabel(sum, count) == LabelOfMean((sum as real) / (count as real))
  {
    AtLeastIffScaled(sum, count, 7);
    AtLeastIffScaled(sum, count, 5);
    AtLeastIffScaled(sum, count, 3);
  }

  /**
   The reported label is "N/A" when no record has a known mood, and otherwise
   the bucket of the mean score of exactly the records with a known mood.
   */
  lemma StatsLabelIsMeanBucket(s: seq<Session>)
    ensures MoodCount(s) == 0 ==> Stats(s).avgMoodLabel == NotApplicable
    ensures MoodCount(s) > 0 ==>
      Stats(s).avgMoodLabel == LabelOfMean((MoodSum(s) as real) / (MoodCount(s) as real))
  {
    if MoodCount(s) > 0 {
      LabelMatchesMean(MoodSum(s), MoodCount(s));
    }
  }

  /** How one more record at the end moves each aggregate. */
  lemma StatsAppend(s: seq<Session>, x: Session)
    ensures Stats(s + [x]).totalSessions == Stats(s).totalSessions + 1
    ensures Stats(s + [x]).completedSessions == Stats(s).completedSessions + (if x.completed then 1 else 0)
    ensures Stats(s + [x]).totalMinutes == Stats(s).totalMinutes + MinutesOf(x.duration)
    ensures MoodCount(s + [x]) == MoodCount(s) + (if MoodScore(x.mood).Some? then 1 else 0)
    ensures MoodSum(s + [x]) == MoodSum(s) + (if MoodScore(x.mood).Some? then MoodScore(x.mood).value else 0)
    ensures MoodScore(x.mood).None? ==> Stats(s + [x]).avgMoodLabel == Stats(s).avgMoodLabel
  {
    TallyAppend(s, x, CompletedWeight);
    TallyAppend(s, x, MinutesWeight);
    TallyAppend(s, x, ScoreWeight);
    TallyAppend(s, x, MatchWeight);
  }

  /**
   An accepted create adds one session, not completed, and its minutes; a
   refused one leaves the stats as they were.
   */
  lemma CreateUpdatesStats(st: Store, req: CreateRequest, now: string)
    ensures var after := Stats(Create(st, req, now).store.sessions);
      && (!FieldsPresent(req) ==> after == Stats(st.sessions))
      && (FieldsPresent(req) ==>
            && after.totalSessions == Stats(st.sessions).totalSessions + 1
            && after.completedSessions == Stats(st.sessions).completedSessions
            && after.totalMinutes == Stats(st.sessions).totalMinutes + MinutesOf(req.durationMinutes))
  {
    if FieldsPresent(req) {
      StatsAppend(st.sessions, Create(st, req, now).outcome.session);
    }
  }

  /** Negating one record's completed flag moves only the completed count, by one. */
  lemma FlipStats(s: seq<Session>, i: int)
    requires 0 <= i < |s|
    ensures var t := s[i := s[i].(completed := !s[i].completed)];
      && Stats(t).totalSessions == Stats(s).totalSessions
      && Stats(t).totalMinutes == Stats(s).totalMinutes
      && Stats(t).avgMoodLabel == Stats(s).avgMoodLabel
      && Stats(t).completedSessions == Stats(s).completedSessions + (if t[i].completed then 1 else -1)
  {
    var y := s[i].(completed := !s[i].completed);
    TallyUpdate(s, i, y, CompletedWeight);
    TallyUpdate(s, i, y, MinutesWeight);
    TallyUpdate(s, i, y, ScoreWeight);
    TallyUpdate(s, i, y, MatchWeight);
  }

  /**
   A toggle moves the completed count by one in the direction of the new
   flag and leaves the other aggregates alone; an unknown id changes nothing.
   */
  lemma ToggleUpdatesStats(st: Store, id: int)
    ensures var r := Toggle(st, id);
      var before := Stats(st.sessions);
      var after := Stats(r.store.sessions);
      && after.totalSessions == before.totalSessions
      && after.totalMinutes == before.totalMinutes
      && after.avgMoodLabel == before.avgMoodLabel
      && (r.outcome.NotFound? ==> after.completedSessions == before.completedSessions)
      && (r.outcome.Ok? ==>
            after.completedSessions == before.completedSessions + (if r.outcome.session.completed then 1 else -1))
  {
    match FindIndex(st.sessions, id)
    case None =>
      assert Toggle(st, id).store == st;
    case Some(i) =>
      var s := st.sessions;
      var t := s[i := s[i].(completed := !s[i].completed)];
      assert Toggle(st, id).store.sessions == t;
      assert Toggle(st, id).outcome.session == t[i];
      FlipStats(s, i);
  }

  // -------------------------------------------------------------- examples

  lemma EmptyStats()
    ensures Stats([]) == Report(0, 0, 0, NotApplicable)
    ensures Stats([]).avgMoodLabel.Text() == "N/A"
  {
  }

  /** Two grinning sessions and a neutral one average 10 / 3, which is "Balanced". */
  lemma MoodExample(a: Session, b: Session, c: Session)
    requires a.mood == Grinning && b.mood == Grinning && c.mood == Neutral
    ensures MoodSum([a, b, c]) == 10 && MoodCount([a, b, c]) == 3
    ensures Stats([a, b, c]).avgMoodLabel == Balanced
    ensures Stats([a, b, c]).avgMoodLabel.Text() == "Balanced " + Smiling
  {
    AppendThree(a, b, c);
  }

  /** Durations 30, "45" and 0 add up to 75 minutes. */
  lemma MinutesExample(a: Session, b: Session, c: Session)
    requires a.duration == Minutes(30) && b.duration == Text("45") && c.duration == Minutes(0)
    ensures Stats([a, b, c]).totalMinutes == 75
  {
    AppendThree(a, b, c);
    var t: Decimal.DigitString := "45";
    assert t[..1] == "4";
  }

  lemma AppendThree(a: Session, b: Session, c: Session)
    ensures MoodCount([a, b, c]) == MatchWeight(a) + MatchWeight(b) + MatchWeight(c)
    ensures MoodSum([a, b, c]) == ScoreWeight(a) + ScoreWeight(b) + ScoreWeight(c)
    ensures TotalMinutes([a, b, c]) == MinutesOf(a.duration) + MinutesOf(b.duration) + MinutesOf(c.duration)
  {
    assert [a, b, c] == [a, b] + [c];
    assert [a, b] == [a] + [b];
    assert [a] == [] + [a];
    StatsAppend([], a);
    StatsAppend([a], b);
    StatsAppend([a, b], c);
  }

  /** A record with an unknown mood still counts as a session and for its minutes. */
  lemma UnknownMoodExample(a: Session)
    requires a.mood == "excited" && a.duration == Minutes(20)
    ensures Stats([a]) == Report(1, if a.completed then 1 else 0, 20, NotApplicable)
  {
    StatsAppend([], a);
    assert [] + [a] == [a];
  }
}
